=== FILE: README.md ===
# jackson-jr `JSON` facade — a Dafny model

This project models the configuration and dispatch layer of the `JSON`
facade class of jackson-jr (`com.fasterxml.jackson.simple.ob.JSON`), the
object callers use to read and write JSON as simple Java values:

- the **feature word**: an `int` bitmask of `Feature`s, with `with(Feature,
  boolean)`, `with(Feature...)`, `without(Feature...)` and `isEnabled`
  (module `FeatureFlags`, over `bv32`);
- the **immutable instance** and its **copy-on-write mutant factories**:
  each `with(...)` returns the instance itself when nothing changes, and
  otherwise a new instance differing in one component; the constructor
  fills in a default reader/writer when given `null` (module `Facade`);
- the **read entry points** `listFromJSON`, `arrayFromJSON`, `mapFromJSON`
  and `fromJSON`: source-type dispatch (`_parser`), the "point at a token"
  step (`_initForReading`), and which parsers are closed or cleared on which
  path (module `Reading`);
- the **write entry points**: `_writeAndClose` and `writeJSON(value,
  JsonGenerator)` (module `Writing`).

The collaborators the facade holds — `JsonFactory`, `TreeCodec`,
`PrettyPrinter`, `JSONReader`, `JSONWriter`, `ListBuilder`, `MapBuilder`,
`TypeDetector` — are not part of this model. They appear as numbered
handles (module `Components`). Java reference identity (`==` on objects) is
modelled by value equality. `JSONReader` and `JSONWriter` are reduced to
their own copy of the feature word plus the builders, detector and codec
they hold. Their `withFeatures`, `with(ListBuilder)`, `with(MapBuilder)` and
`with(TreeCodec)` are assumed to replace just that part. The token stream
and the reader engine (`readList`, `readArray`, `readMap`, `readValue`) are
function parameters. Every read entry point tests for a `JsonParser` before
anything else, so in the model a parser is always given as the caller's
parser and only other objects reach `_parser` (`Reading.PlainSource`).

The file is inconsistent about which sources it accepts. The documentation
of `fromJSON` (JSON.java:471-480) and the error text of `_parser`
(JSON.java:573-574) list `File` as a supported source. But `_parser` has no
`File` branch, so a `File` falls through to the "unsupported source" error.
The model follows the code (`Reading.FileIsUnsupported`).

## Model

| member | source | states |
|---|---|---|
| `FeatureFlags.Toggle` | src/main/java/com/fasterxml/jackson/simple/ob/JSON.java:234-243 | `with(f, state)` forces every bit of `f`'s mask to `state` and leaves every other bit of the word as it was |
| `FeatureFlags.SetAll` | src/main/java/com/fasterxml/jackson/simple/ob/JSON.java:249-256 | the word after `with(Feature...)` still holds the original word and holds every listed mask |
| `FeatureFlags.ClearAll` | src/main/java/com/fasterxml/jackson/simple/ob/JSON.java:262-269 | the word after `without(Feature...)` lies within the original word and shares no bit with any listed mask |
| `FeatureFlags.SetAllLeast` | src/main/java/com/fasterxml/jackson/simple/ob/JSON.java:249-256 | `with(Feature...)` sets no other bit: any word holding the original and all listed masks holds the result |
| `FeatureFlags.ClearAllGreatest` | src/main/java/com/fasterxml/jackson/simple/ob/JSON.java:262-269 | `without(Feature...)` clears no other bit: any word within the original that avoids all listed masks lies within the result |
| `FeatureFlags.SetAllSameFeatures` | src/main/java/com/fasterxml/jackson/simple/ob/JSON.java:249-256 | the word after `with(Feature...)` depends only on which features are listed, not on their order or repetitions |
| `FeatureFlags.ClearAllSameFeatures` | src/main/java/com/fasterxml/jackson/simple/ob/JSON.java:262-269 | the word after `without(Feature...)` depends only on which features are listed |
| `FeatureFlags.ToggleEnables` | src/main/java/com/fasterxml/jackson/simple/ob/JSON.java:315-317 | after `with(f, state)` the word reports `f` enabled exactly when `state` holds |
| `FeatureFlags.ToggleKeepsOthers` | src/main/java/com/fasterxml/jackson/simple/ob/JSON.java:234-243 | a feature whose mask does not overlap `f`'s keeps its enabled state under `with(f, state)` |
| `FeatureFlags.ToggleIdempotent` | src/main/java/com/fasterxml/jackson/simple/ob/JSON.java:234-243 | applying `with(f, state)` to the word twice gives the same word as once |
| `FeatureFlags.SetAllSingle` | src/main/java/com/fasterxml/jackson/simple/ob/JSON.java:249-256 | `with(f)` with one feature computes the same word as `with(f, true)` |
| `FeatureFlags.ClearAllSingle` | src/main/java/com/fasterxml/jackson/simple/ob/JSON.java:262-269 | `without(f)` with one feature computes the same word as `with(f, false)` |
| `FeatureFlags.SetAllEnables` | src/main/java/com/fasterxml/jackson/simple/ob/JSON.java:315-317 | every feature listed to `with(Feature...)` tests enabled on the resulting word |
| `FeatureFlags.ClearAllDisables` | src/main/java/com/fasterxml/jackson/simple/ob/JSON.java:315-317 | every feature listed to `without(Feature...)` tests disabled on the resulting word |
| `Facade.Construct` | src/main/java/com/fasterxml/jackson/simple/ob/JSON.java:90-109 | a given reader/writer is kept; a null reader is replaced by one with the given word and the default list and map builders, a null writer by one with the given word and codec and the root type detector; an instance built without both is wired to its own word |
| `Facade.Standard` | src/main/java/com/fasterxml/jackson/simple/ob/JSON.java:78-109 | `new JSON()` has the default word, no tree codec, no pretty printer, and the default reader (default builders) and default writer (root detector, no codec), both on its word |
| `Facade.Rebuild` | src/main/java/com/fasterxml/jackson/simple/ob/JSON.java:290-299 | as written, the rebuilt instance is exactly the corrected rebuild given the current word instead of the requested one: it carries the current word whatever word it was given, with the requested factory, codec, reader, writer and printer |
| `Facade.RebuildFixed` | src/main/java/com/fasterxml/jackson/simple/ob/JSON.java:290-299 | corrected: the rebuilt instance carries the word, factory, codec and printer it was given, and the given reader and writer, or for a null one the default built from the given word (and codec) |
| `Facade.WithFactory` | src/main/java/com/fasterxml/jackson/simple/ob/JSON.java:142-148 | the result differs from the instance in the factory only (and is the instance when the factory is the same) |
| `Facade.WithCodec` | src/main/java/com/fasterxml/jackson/simple/ob/JSON.java:154-161 | the same codec gives back the instance; otherwise both the codec and the writer's codec change and nothing else does |
| `Facade.WithReader` | src/main/java/com/fasterxml/jackson/simple/ob/JSON.java:167-174 | only the reader changes: to the given one, or for null to a default reader built from the instance's word |
| `Facade.WithWriter` | src/main/java/com/fasterxml/jackson/simple/ob/JSON.java:180-187 | only the writer changes: to the given one, or for null to a default writer built from the instance's word and codec |
| `Facade.WithPrinter` | src/main/java/com/fasterxml/jackson/simple/ob/JSON.java:193-200 | the result differs from the instance in the pretty printer only |
| `Facade.WithMapBuilder` | src/main/java/com/fasterxml/jackson/simple/ob/JSON.java:206-213 | only the reader's map builder changes; the instance comes back unchanged when the reader would not change |
| `Facade.WithListBuilder` | src/main/java/com/fasterxml/jackson/simple/ob/JSON.java:219-226 | only the reader's list builder changes; the instance comes back unchanged when the reader would not change |
| `Facade.WithFeatureWord` | src/main/java/com/fasterxml/jackson/simple/ob/JSON.java:274-282 | an unchanged word gives back the instance; a changed word reaches the new reader and writer, but the new instance keeps the old word; nothing else changes |
| `Facade.With` | src/main/java/com/fasterxml/jackson/simple/ob/JSON.java:234-243 | as written, the instance's own word never changes; when toggling `f` leaves the word as it is, the instance itself comes back; otherwise the new reader and writer carry exactly the toggled word (so `f` is in the requested state); the factory, codec, printer, builders and detector never change |
| `Facade.WithAll` | src/main/java/com/fasterxml/jackson/simple/ob/JSON.java:249-256 | as written, the instance's word never changes; when ORing in the masks changes nothing, the instance itself comes back; otherwise the new reader and writer carry exactly the ORed word, which holds every listed mask; no other component changes |
| `Facade.Without` | src/main/java/com/fasterxml/jackson/simple/ob/JSON.java:262-269 | as written, the instance's word never changes; when clearing the masks changes nothing, the instance itself comes back; otherwise the new reader and writer carry exactly the cleared word, which avoids every listed mask; no other component changes |
| `Facade.WithIdempotent` | src/main/java/com/fasterxml/jackson/simple/ob/JSON.java:274-282 | applying `with(f, state)` twice gives an instance equal in every component to applying it once (as written, not the same object: see `Facade.WithRebuildsAgain`) |
| `Facade.WithRebuildsAgain` | src/main/java/com/fasterxml/jackson/simple/ob/JSON.java:274-299 | as written, when `with(f, state)` changes the word, a second identical call still sees a changed word, misses the fast path and builds another instance |
| `Facade.ChainedEnableLosesFirst` | src/main/java/com/fasterxml/jackson/simple/ob/JSON.java:234-299 | as written, enabling mask 1 then mask 2 on the standard instance with word 0 leaves reader and writer with word 2: the first change is lost |
| `Facade.WithAllSameFeatures` | src/main/java/com/fasterxml/jackson/simple/ob/JSON.java:249-256 | `with(Feature...)` on an instance depends only on which features are listed |
| `Facade.WithoutSameFeatures` | src/main/java/com/fasterxml/jackson/simple/ob/JSON.java:262-269 | `without(Feature...)` on an instance depends only on which features are listed |
| `Facade.FeatureFactoriesKeepIsEnabled` | src/main/java/com/fasterxml/jackson/simple/ob/JSON.java:290-299 | as written, `isEnabled` on the instance returned by any feature factory answers as on the original, for every feature |
| `Facade.WithUnwires` | src/main/java/com/fasterxml/jackson/simple/ob/JSON.java:274-299 | as written, a feature change on a wired instance yields one whose reader word differs from its own word |
| `Facade.EnableIsNotVisible` | src/main/java/com/fasterxml/jackson/simple/ob/JSON.java:298 | as written, enabling a feature on the standard instance with word 0 leaves `isEnabled` false although its reader and writer have it enabled |
| `Facade.WithFeatureWordFixed` | src/main/java/com/fasterxml/jackson/simple/ob/JSON.java:274-282 | corrected: a changed word reaches the instance, its reader and its writer; nothing else changes |
| `Facade.WithFixed` | src/main/java/com/fasterxml/jackson/simple/ob/JSON.java:234-243 | corrected: the result's word is the toggled word and `isEnabled(f)` on it answers `state`; an unchanged word gives back the instance itself, a changed one reaches the reader and writer too; the factory, codec, printer, builders and detector never change |
| `Facade.WithAllFixed` | src/main/java/com/fasterxml/jackson/simple/ob/JSON.java:249-256 | corrected: the result's word is the original with every listed mask ORed in; an unchanged word gives back the instance itself, a changed one reaches the reader and writer too; no other component changes |
| `Facade.WithoutFixed` | src/main/java/com/fasterxml/jackson/simple/ob/JSON.java:262-269 | corrected: the result's word is the original with every listed mask cleared; an unchanged word gives back the instance itself, a changed one reaches the reader and writer too; no other component changes |
| `Facade.FixedFactoriesKeepWired` | src/main/java/com/fasterxml/jackson/simple/ob/JSON.java:274-282 | corrected feature factories keep the reader and writer on the instance's own word |
| `Facade.FixedListFactoriesReadBack` | src/main/java/com/fasterxml/jackson/simple/ob/JSON.java:249-269 | corrected: each listed feature tests enabled after `with(Feature...)` and disabled after `without(Feature...)` |
| `Facade.WithFixedKeepsOthers` | src/main/java/com/fasterxml/jackson/simple/ob/JSON.java:234-243 | corrected: features not overlapping `f` keep their `isEnabled` answer |
| `Facade.WithFixedIdempotent` | src/main/java/com/fasterxml/jackson/simple/ob/JSON.java:274-282 | corrected: applying `with(f, state)` twice is the same as once |
| `Facade.WithFixedHitsFastPath` | src/main/java/com/fasterxml/jackson/simple/ob/JSON.java:274-277 | corrected: after `with(f, state)` a second identical call finds the word unchanged and returns the instance itself |
| `Facade.ChainedEnableKeepsBoth` | src/main/java/com/fasterxml/jackson/simple/ob/JSON.java:234-243 | corrected: enabling mask 1 then mask 2 on the standard instance with word 0 gives word 3 on the instance, its reader and its writer |
| `Facade.ComponentFactoriesKeepWired` | src/main/java/com/fasterxml/jackson/simple/ob/JSON.java:142-226 | every component factory keeps the reader and writer on the instance's word and codec; an explicit reader or writer does so exactly when it carries them |
| `Reading.InitForReading` | src/main/java/com/fasterxml/jackson/simple/ob/JSON.java:577-592 | a current token is kept without moving; otherwise the parser advances exactly once; "no content" is signalled exactly when the input is exhausted; success always leaves a current token |
| `Reading.ParserFor` | src/main/java/com/fasterxml/jackson/simple/ob/JSON.java:545-575 | the chosen kind accepts the source and no earlier kind in the order String, InputStream, Reader, byte[], URL, char[], CharSequence does; a source no kind accepts is an illegal state for a `JsonParser`, else an unsupported-source error naming its class |
| `Reading.FileIsUnsupported` | src/main/java/com/fasterxml/jackson/simple/ob/JSON.java:545-575 | a `File` source gets the unsupported-source error |
| `Reading.StringBeforeCharSequence` | src/main/java/com/fasterxml/jackson/simple/ob/JSON.java:549-569 | a `String` is parsed as a string, not via the `CharSequence` branch |
| `Reading.ReadFromJson` | src/main/java/com/fasterxml/jackson/simple/ob/JSON.java:386-504 | a `JsonParser` source is the caller's parser and is never closed; on "no content" it is left as it was, and after a failed read it is left where the reader stopped; any other source no kind accepts yields the unsupported-source error naming its class, with no parser created; a parser the facade created is closed exactly when reading fails; on success the current token is cleared and later tokens stay; an exhausted parser yields "no content"; otherwise the result is the reader's, called on a parser with a current token |
| `Reading.EntryPointsNeverIllegalState` | src/main/java/com/fasterxml/jackson/simple/ob/JSON.java:386-504 | the read entry points never raise `_parser`'s illegal-state error themselves: any failure is "no content", an unsupported source, or the reader's own |
| `Reading.EntryPointsDifferOnlyInEngine` | src/main/java/com/fasterxml/jackson/simple/ob/JSON.java:386-504 | the four read entry points differ only in the reader operation they call |
| `Reading.EmptyArrayReachesEngine` | src/main/java/com/fasterxml/jackson/simple/ob/JSON.java:577-592 | a parser about to read `[` is not "no content": the reader is called on it positioned at `[` |
| `Writing.WriteAndClose` | src/main/java/com/fasterxml/jackson/simple/ob/JSON.java:512-529 | the generator is closed on both paths; a write failure is reported as is; a close failure is reported only after a successful write |
| `Writing.WriteFailureIsNeverMasked` | src/main/java/com/fasterxml/jackson/simple/ob/JSON.java:521-528 | after a failed write the outcome is the same whether or not closing fails |
| `Writing.WriteToGenerator` | src/main/java/com/fasterxml/jackson/simple/ob/JSON.java:355-362 | the caller's generator is never closed; it is flushed exactly when the write succeeds and the instance reports flush-after-write enabled; the call fails exactly when the write fails or that flush fails, with the write's failure first |
| `Writing.FlushIgnoresFeatureToggle` | src/main/java/com/fasterxml/jackson/simple/ob/JSON.java:355-362 | as written, toggling flush-after-write through `with(f, state)` does not change whether `writeJSON` flushes |
| `Writing.FlushFollowsFixedToggle` | src/main/java/com/fasterxml/jackson/simple/ob/JSON.java:355-362 | with the corrected factory, enabling flush-after-write makes a successful write flush and report the flush's outcome; disabling it leaves the generator unflushed and the call successful |

## Findings

| source | as written | input that shows it | evidently intended | confidence | as-written member | corrected member |
|---|---|---|---|---|---|---|
| src/main/java/com/fasterxml/jackson/simple/ob/JSON.java:298 | `_with(features, ...)` constructs the new instance with `_features`, the current word, so the `features` argument is dropped | `JSON.std`-like instance with word 0, `with(f, true)` for a feature with mask 1: the result's reader and writer get word 1, but `isEnabled(f)` on the result is false | construct with the `features` argument, so `isEnabled(f)` answers `true` after `with(f, true)` | high; not executed | `Facade.EnableIsNotVisible` | `Facade.WithFixed` |

The as-written chain is `Facade.Rebuild`, then `Facade.WithFeatureWord`, then
`Facade.With`/`WithAll`/`Without`. `Facade.FeatureFactoriesKeepIsEnabled` and
`Facade.WithUnwires` state the defect for all inputs, `Facade.WithRebuildsAgain`
and `Facade.ChainedEnableLosesFirst` show repeated and chained calls going
wrong, and
`Writing.FlushIgnoresFeatureToggle` shows one visible consequence. The
corrected chain is `Facade.RebuildFixed`, then `Facade.WithFeatureWordFixed`,
then `Facade.WithFixed`/`WithAllFixed`/`WithoutFixed`. Its intended properties
are proved in `Facade.WithFixed`, `Facade.WithFixedHitsFastPath`,
`Facade.ChainedEnableKeepsBoth`, `Facade.FixedListFactoriesReadBack`,
`Facade.FixedFactoriesKeepWired` and `Writing.FlushFollowsFixedToggle`. The
component factories always pass the current word, so the two chains agree on
them (the first ensures of `Facade.Rebuild`).

## Left out

- `JSONReader`, `JSONWriter`, `TypeDetector`, `ListBuilder`, `MapBuilder`: not part of this model. Their code is not available, so the reader engine is a parameter and the reader/writer are stand-ins holding a feature word and handles.
- The `Feature` enum: its masks and `Feature.defaults()` are not part of this model. A feature is any non-zero `bv32` mask, and the default word is a parameter of `Facade.Standard`.
- `asJSONString` and `asJSONBytes`: their string/byte buffering and their wrapping of unexpected `IOException`s are I/O glue around `_writeAndClose`, which is modelled.
- `_config(JsonGenerator)`: pretty-printer selection is left out. `_config(JsonParser)` does nothing and is omitted.
- `asCodec` and `version()`: adapters and metadata, with no behaviour of the facade's own.
- The `getClass() != JSON.class` check in `_with(...)`: sub-classing is not modelled; the model is the `JSON` class itself.
- `Reading.ReadFromJson`: the tokenizer's own I/O failures while advancing are not modelled separately. Only end-of-input and reader failures appear; the facade handles both the same way, closing a parser it created.
- `Reading.ReadFromJson`: a failure of `createParser` itself (for example opening a URL or reading the start of a stream) is not modelled; `open` always yields a parser. Such a failure would propagate before any parser exists.
- `Reading.ReadFromJson`: `_close` swallows only an `IOException`; a close that throws an unchecked exception, which would replace the read failure, is not modelled (`Reading.CloseQuietly` always completes).
- `Writing.WriteAndClose`: a close that throws something other than an `IOException` after a failed write (which would escape and mask the write failure) is not modelled.
- A `null` source: `_parser` dereferences it and fails with a `NullPointerException`; sources are always present in the model.
- `Facade.WithFactory`: a `null` factory is not modelled; the factory is always a handle.
- `Facade.With`, `Facade.WithAll`, `Facade.Without` and `Facade.IsEnabled`: a `null` feature, a `null` feature array, or a `null` element in it is not modelled. The source fails with a `NullPointerException` on them (JSON.java:238-240, 252-253, 265-266, 316); in the model a `FeatureFlags.Feature` is always a mask.
- The test files under jr-objects exercise a different class (`com.fasterxml.jackson.jr.ob.JSON`) with a different API, so no property here rests on them.

=== FILE: components.dfy ===
/** Stand-ins for the collaborators the facade holds but whose code is not
    part of this model (`JsonFactory`, `TreeCodec`, `PrettyPrinter`,
    `JSONReader`, `JSONWriter`, `ListBuilder`, `MapBuilder`,
    `TypeDetector`). Java object identity is modelled by value equality:
    every opaque collaborator is a numbered handle. */
module Components {
  import opened Results

  datatype FactoryRef = FactoryRef(id: nat)
  datatype CodecRef = CodecRef(id: nat)
  datatype PrinterRef = PrinterRef(id: nat)
  datatype ListBuilderRef = ListBuilderRef(id: nat)
  datatype MapBuilderRef = MapBuilderRef(id: nat)
  datatype DetectorRef = DetectorRef(id: nat)

  /** `ListBuilder.defaultImpl()`, `MapBuilder.defaultImpl()` and
      `TypeDetector.rootDetector()`. */
  const DefaultLists := ListBuilderRef(0)
  const DefaultMaps := MapBuilderRef(0)
  const RootDetector := DetectorRef(0)

  /** The blueprint reader: its own copy of the feature word and the two
      container builders it materializes arrays and objects with. */
  datatype Reader = Reader(features: bv32, lists: ListBuilderRef, maps: MapBuilderRef) {

    /** `withFeatures(int)`: the same reader carrying the given word. */
    function WithFeatures(w: bv32): Reader {
      this.(features := w)
    }

    /** `with(ListBuilder)`: the same reader with the given list builder;
        the reader itself when the builder is the one it already has. */
    function WithLists(b: ListBuilderRef): Reader {
      if b == lists then this else this.(lists := b)
    }

    /** `with(MapBuilder)`, as `WithLists`. */
    function WithMaps(b: MapBuilderRef): Reader {
      if b == maps then this else this.(maps := b)
    }
  }

  /** The blueprint writer: its own copy of the feature word, the type
      detector and the tree codec it writes tree values with. */
  datatype Writer = Writer(features: bv32, detector: DetectorRef, codec: Option<CodecRef>) {

    /** `withFeatures(int)`: the same writer carrying the given word. */
    function WithFeatures(w: bv32): Writer {
      this.(features := w)
    }

    /** `with(TreeCodec)`: the same writer using the given codec. */
    function WithCodec(c: Option<CodecRef>): Writer {
      this.(codec := c)
    }
  }
}

=== FILE: facade.dfy ===
/** The `JSON` facade object: an immutable record of configuration. Its
    mutant factories never change an instance; each returns the instance
    itself when nothing would change, and otherwise a new instance that
    differs in exactly the requested component. */
module Facade {
  import opened Results
  import opened FeatureFlags
  import opened Components

  datatype Json = Json(
    features: bv32,
    factory: FactoryRef,
    codec: Option<CodecRef>,
    reader: Reader,
    writer: Writer,
    printer: Option<PrinterRef>)

  /** `_defaultReader(features)`: the given word with the default list and
      map builders. */
  function DefaultReader(features: bv32): Reader {
    Reader(features, DefaultLists, DefaultMaps)
  }

  /** `_defaultWriter(features, trees)`: the given word and codec with the
      root type detector. */
  function DefaultWriter(features: bv32, codec: Option<CodecRef>): Writer {
    Writer(features, RootDetector, codec)
  }

  /** The blueprint reader and writer carry the instance's own feature word,
      and the writer handles tree values with the instance's own codec. */
  predicate Wired(j: Json) {
    && j.reader.features == j.features
    && j.writer.features == j.features
    && j.writer.codec == j.codec
  }

  /** `isEnabled(Feature)`, answered from the instance's own word. */
  predicate IsEnabled(j: Json, f: Feature) {
    Enabled(j.features, f)
  }

  /** The six-argument constructor: a missing (null) reader or writer is
      replaced by a default one built from the given word and codec; given
      ones are kept as they are. */
  function Construct(features: bv32, factory: FactoryRef, codec: Option<CodecRef>,
                     reader: Option<Reader>, writer: Option<Writer>,
                     printer: Option<PrinterRef>): (j: Json)
    ensures j.features == features && j.factory == factory
    ensures j.codec == codec && j.printer == printer
    ensures reader.Some? ==> j.reader == reader.value
    ensures writer.Some? ==> j.writer == writer.value
    ensures reader.None? ==> j.reader == DefaultReader(features)
    ensures reader.None? ==>
              j.reader.features == features && j.reader.lists == DefaultLists && j.reader.maps == DefaultMaps
    ensures writer.None? ==> j.writer == DefaultWriter(features, codec)
    ensures writer.None? ==>
              j.writer.features == features && j.writer.detector == RootDetector && j.writer.codec == codec
    ensures reader.None? && writer.None? ==> Wired(j)
  {
    Json(features, factory, codec,
         if reader.None? then DefaultReader(features) else reader.value,
         if writer.None? then DefaultWriter(features, codec) else writer.value,
         printer)
  }

  /** `new JSON()`: the default word (`Feature.defaults()`, whose value is
      not part of this model), no tree codec, no pretty printer. */
  function Standard(defaults: bv32, factory: FactoryRef): (j: Json)
    ensures Wired(j)
    ensures j.features == defaults && j.factory == factory
    ensures j.codec.None? && j.printer.None?
    ensures j.reader == DefaultReader(defaults) && j.writer == DefaultWriter(defaults, None)
    ensures j.reader.lists == DefaultLists && j.reader.maps == DefaultMaps && j.writer.detector == RootDetector
  {
    Construct(defaults, factory, None, None, None, None)
  }

  /** `_with(features, jsonF, trees, reader, writer, pp)` AS WRITTEN: the new
      instance is constructed with the current word `j.features`; the
      `features` argument is not used. */
  function Rebuild(j: Json, features: bv32, factory: FactoryRef, codec: Option<CodecRef>,
                   reader: Option<Reader>, writer: Option<Writer>,
                   printer: Option<PrinterRef>): (r: Json)
    ensures r == RebuildFixed(j, j.features, factory, codec, reader, writer, printer)
    ensures r.features == j.features
  {
    Construct(j.features, factory, codec, reader, writer, printer)
  }

  /** `_with(features, ...)` as evidently intended: the new instance carries
      the word it was given. */
  function RebuildFixed(j: Json, features: bv32, factory: FactoryRef, codec: Option<CodecRef>,
                        reader: Option<Reader>, writer: Option<Writer>,
                        printer: Option<PrinterRef>): (r: Json)
    ensures r.features == features
    ensures r.factory == factory && r.codec == codec && r.printer == printer
    ensures reader.Some? ==> r.reader == reader.value
    ensures reader.None? ==> r.reader == DefaultReader(features)
    ensures writer.Some? ==> r.writer == writer.value
    ensures writer.None? ==> r.writer == DefaultWriter(features, codec)
  {
    Construct(features, factory, codec, reader, writer, printer)
  }

  // ---------------------------------------------------------------------
  // Component mutant factories. They all pass the current word, so the
  // defect of `Rebuild` does not show through them.
  // ---------------------------------------------------------------------

  /** `with(JsonFactory)`. */
  function WithFactory(j: Json, f: FactoryRef): (r: Json)
    ensures r == j.(factory := f)
  {
    if f == j.factory then j
    else Rebuild(j, j.features, f, j.codec, Some(j.reader), Some(j.writer), j.printer)
  }

  /** `with(TreeCodec)`: the only component factory that touches a second
      component, handing the new codec to the writer as well. */
  function WithCodec(j: Json, c: Option<CodecRef>): (r: Json)
    ensures c == j.codec ==> r == j
    ensures c != j.codec ==> r == j.(codec := c, writer := j.writer.(codec := c))
  {
    if c == j.codec then j
    else Rebuild(j, j.features, j.factory, c, Some(j.reader), Some(j.writer.WithCodec(c)), j.printer)
  }

  /** `with(JSONReader)`: a null reader is replaced by a default one built
      from the instance's word. */
  function WithReader(j: Json, rd: Option<Reader>): (r: Json)
    ensures rd.Some? ==> r == j.(reader := rd.value)
    ensures rd.None? ==> r == j.(reader := DefaultReader(j.features))
  {
    if rd == Some(j.reader) then j
    else Rebuild(j, j.features, j.factory, j.codec, rd, Some(j.writer), j.printer)
  }

  /** `with(JSONWriter)`: a null writer is replaced by a default one built
      from the instance's word and codec. */
  function WithWriter(j: Json, w: Option<Writer>): (r: Json)
    ensures w.Some? ==> r == j.(writer := w.value)
    ensures w.None? ==> r == j.(writer := DefaultWriter(j.features, j.codec))
  {
    if w == Some(j.writer) then j
    else Rebuild(j, j.features, j.factory, j.codec, Some(j.reader), w, j.printer)
  }

  /** `with(PrettyPrinter)`. */
  function WithPrinter(j: Json, p: Option<PrinterRef>): (r: Json)
    ensures r == j.(printer := p)
  {
    if j.printer == p then j
    else Rebuild(j, j.features, j.factory, j.codec, Some(j.reader), Some(j.writer), p)
  }

  /** `with(MapBuilder)`: decided by whether the reader changes. */
  function WithMapBuilder(j: Json, b: MapBuilderRef): (r: Json)
    ensures r == j.(reader := j.reader.(maps := b))
  {
    var rd := j.reader.WithMaps(b);
    if rd == j.reader then j
    else Rebuild(j, j.features, j.factory, j.codec, Some(rd), Some(j.writer), j.printer)
  }

  /** `with(ListBuilder)`: decided by whether the reader changes. */
  function WithListBuilder(j: Json, b: ListBuilderRef): (r: Json)
    ensures r == j.(reader := j.reader.(lists := b))
  {
    var rd := j.reader.WithLists(b);
    if rd == j.reader then j
    else Rebuild(j, j.features, j.factory, j.codec, Some(rd), Some(j.writer), j.printer)
  }

  // ---------------------------------------------------------------------
  // Feature mutant factories, as written.
  // ---------------------------------------------------------------------

  /** `_with(int)` AS WRITTEN: a changed word reaches the new reader and
      writer, but not the new instance itself. */
  function WithFeatureWord(j: Json, w: bv32): (r: Json)
    ensures w == j.features ==> r == j
    ensures r.features == j.features
    ensures w != j.features ==> r.reader.features == w && r.writer.features == w
    ensures r.factory == j.factory && r.codec == j.codec && r.printer == j.printer
    ensures r.reader.lists == j.reader.lists && r.reader.maps == j.reader.maps
    ensures r.writer.detector == j.writer.detector && r.writer.codec == j.writer.codec
  {
    if j.features == w then j
    else Rebuild(j, w, j.factory, j.codec,
                 Some(j.reader.WithFeatures(w)), Some(j.writer.WithFeatures(w)), j.printer)
  }

  /** `with(Feature, boolean)`. */
  function With(j: Json, f: Feature, state: bool): (r: Json)
    ensures r.features == j.features
    ensures Toggle(j.features, f, state) == j.features ==> r == j
    ensures Toggle(j.features, f, state) != j.features ==>
              r.reader.features == Toggle(j.features, f, state) && r.writer.features == Toggle(j.features, f, state)
    ensures r == j || (Enabled(r.reader.features, f) == state && Enabled(r.writer.features, f) == state)
    ensures r.factory == j.factory && r.codec == j.codec && r.printer == j.printer
    ensures r.reader.lists == j.reader.lists && r.reader.maps == j.reader.maps
    ensures r.writer.detector == j.writer.detector && r.writer.codec == j.writer.codec
  {
    ToggleEnables(j.features, f, state);
    WithFeatureWord(j, Toggle(j.features, f, state))
  }

  /** `with(Feature...)`. */
  function WithAll(j: Json, fs: seq<Feature>): (r: Json)
    ensures r.features == j.features
    ensures SetAll(j.features, fs) == j.features ==> r == j
    ensures SetAll(j.features, fs) != j.features ==>
              r.reader.features == SetAll(j.features, fs) && r.writer.features == SetAll(j.features, fs)
    ensures r == j || (ContainsAll(r.reader.features, fs) && ContainsAll(r.writer.features, fs))
    ensures r.factory == j.factory && r.codec == j.codec && r.printer == j.printer
    ensures r.reader.lists == j.reader.lists && r.reader.maps == j.reader.maps
    ensures r.writer.detector == j.writer.detector && r.writer.codec == j.writer.codec
  {
    WithFeatureWord(j, SetAll(j.features, fs))
  }

  /** `without(Feature...)`. */
  function Without(j: Json, fs: seq<Feature>): (r: Json)
    ensures r.features == j.features
    ensures ClearAll(j.features, fs) == j.features ==> r == j
    ensures ClearAll(j.features, fs) != j.features ==>
              r.reader.features == ClearAll(j.features, fs) && r.writer.features == ClearAll(j.features, fs)
    ensures r == j || (DisjointAll(r.reader.features, fs) && DisjointAll(r.writer.features, fs))
    ensures r.factory == j.factory && r.codec == j.codec && r.printer == j.printer
    ensures r.reader.lists == j.reader.lists && r.reader.maps == j.reader.maps
    ensures r.writer.detector == j.writer.detector && r.writer.codec == j.writer.codec
  {
    WithFeatureWord(j, ClearAll(j.features, fs))
  }

  /** Applying `with(f, state)` twice is the same as applying it once. */
  lemma WithIdempotent(j: Json, f: Feature, state: bool)
    ensures With(With(j, f, state), f, state) == With(j, f, state)
  {
  }

  /** As written, a second `with(f, state)` misses the fast path: the
      instance returned by the first call still carries the old word, so the
      second call builds yet another instance where `this` was intended. */
  lemma WithRebuildsAgain(j: Json, f: Feature, state: bool)
    requires Toggle(j.features, f, state) != j.features
    ensures var once := With(j, f, state);
            Toggle(once.features, f, state) != once.features
  {
  }

  /** As written, chained feature changes do not accumulate: each call starts
      from the instance's stale word, so the second change drops the first
      from the reader and the writer. */
  lemma ChainedEnableLosesFirst()
    ensures var r := With(With(Standard(0, FactoryRef(0)), Feature(1), true), Feature(2), true);
            r.reader.features == 2 && r.writer.features == 2
            && !Enabled(r.reader.features, Feature(1))
  {
    var j := Standard(0, FactoryRef(0));
    assert Toggle(j.features, Feature(1), true) == 1;
    assert Toggle(j.features, Feature(2), true) == 2;
  }

  /** `with(Feature...)` depends only on which features are listed. */
  lemma WithAllSameFeatures(j: Json, fs: seq<Feature>, gs: seq<Feature>)
    requires forall f :: f in fs <==> f in gs
    ensures WithAll(j, fs) == WithAll(j, gs)
  {
    SetAllSameFeatures(j.features, fs, gs);
  }

  /** `without(Feature...)` depends only on which features are listed. */
  lemma WithoutSameFeatures(j: Json, fs: seq<Feature>, gs: seq<Feature>)
    requires forall f :: f in fs <==> f in gs
    ensures Without(j, fs) == Without(j, gs)
  {
    ClearAllSameFeatures(j.features, fs, gs);
  }

  /** As written, no feature factory changes what `isEnabled` reports on the
      instance it returns. */
  lemma FeatureFactoriesKeepIsEnabled(j: Json, f: Feature, state: bool, fs: seq<Feature>, g: Feature)
    ensures IsEnabled(With(j, f, state), g) == IsEnabled(j, g)
    ensures IsEnabled(WithAll(j, fs), g) == IsEnabled(j, g)
    ensures IsEnabled(Without(j, fs), g) == IsEnabled(j, g)
  {
  }

  /** As written, a feature change leaves the new instance with a reader and
      writer whose word disagrees with the instance's own. */
  lemma WithUnwires(j: Json, f: Feature, state: bool)
    requires Wired(j)
    requires Toggle(j.features, f, state) != j.features
    ensures !Wired(With(j, f, state))
    ensures With(j, f, state).reader.features != With(j, f, state).features
  {
  }

  /** A concrete instance of the defect: enabling a feature on the standard
      instance (default word 0) leaves `isEnabled` false on the result while
      its reader and writer have the feature enabled. */
  lemma EnableIsNotVisible()
    ensures var r := With(Standard(0, FactoryRef(0)), Feature(1), true);
            !IsEnabled(r, Feature(1)) && Enabled(r.reader.features, Feature(1))
            && Enabled(r.writer.features, Feature(1))
  {
    var j := Standard(0, FactoryRef(0));
    assert Toggle(j.features, Feature(1), true) == 1;
  }

  // ---------------------------------------------------------------------
  // Feature mutant factories, corrected.
  // ---------------------------------------------------------------------

  /** `_with(int)` as evidently intended: the new word reaches the instance,
      its reader and its writer alike. */
  function WithFeatureWordFixed(j: Json, w: bv32): (r: Json)
    ensures w == j.features ==> r == j
    ensures w != j.features ==> r.features == w && r.reader.features == w && r.writer.features == w
    ensures r.factory == j.factory && r.codec == j.codec && r.printer == j.printer
    ensures r.reader.lists == j.reader.lists && r.reader.maps == j.reader.maps
    ensures r.writer.detector == j.writer.detector && r.writer.codec == j.writer.codec
  {
    if j.features == w then j
    else RebuildFixed(j, w, j.factory, j.codec,
                      Some(j.reader.WithFeatures(w)), Some(j.writer.WithFeatures(w)), j.printer)
  }

  /** `with(Feature, boolean)`, corrected. */
  function WithFixed(j: Json, f: Feature, state: bool): (r: Json)
    ensures r.features == Toggle(j.features, f, state)
    ensures IsEnabled(r, f) == state
    ensures Toggle(j.features, f, state) == j.features ==> r == j
    ensures Toggle(j.features, f, state) != j.features ==>
              r.reader.features == Toggle(j.features, f, state) && r.writer.features == Toggle(j.features, f, state)
    ensures r.factory == j.factory && r.codec == j.codec && r.printer == j.printer
    ensures r.reader.lists == j.reader.lists && r.reader.maps == j.reader.maps
    ensures r.writer.detector == j.writer.detector && r.writer.codec == j.writer.codec
  {
    ToggleEnables(j.features, f, state);
    WithFeatureWordFixed(j, Toggle(j.features, f, state))
  }

  /** `with(Feature...)`, corrected. */
  function WithAllFixed(j: Json, fs: seq<Feature>): (r: Json)
    ensures r.features == SetAll(j.features, fs)
    ensures SetAll(j.features, fs) == j.features ==> r == j
    ensures SetAll(j.features, fs) != j.features ==>
              r.reader.features == SetAll(j.features, fs) && r.writer.features == SetAll(j.features, fs)
    ensures r.factory == j.factory && r.codec == j.codec && r.printer == j.printer
    ensures r.reader.lists == j.reader.lists && r.reader.maps == j.reader.maps
    ensures r.writer.detector == j.writer.detector && r.writer.codec == j.writer.codec
  {
    WithFeatureWordFixed(j, SetAll(j.features, fs))
  }

  /** `without(Feature...)`, corrected. */
  function WithoutFixed(j: Json, fs: seq<Feature>): (r: Json)
    ensures r.features == ClearAll(j.features, fs)
    ensures ClearAll(j.features, fs) == j.features ==> r == j
    ensures ClearAll(j.features, fs) != j.features ==>
              r.reader.features == ClearAll(j.features, fs) && r.writer.features == ClearAll(j.features, fs)
    ensures r.factory == j.factory && r.codec == j.codec && r.printer == j.printer
    ensures r.reader.lists == j.reader.lists && r.reader.maps == j.reader.maps
    ensures r.writer.detector == j.writer.detector && r.writer.codec == j.writer.codec
  {
    WithFeatureWordFixed(j, ClearAll(j.features, fs))
  }

  /** Corrected feature factories keep a wired instance wired. */
  lemma FixedFactoriesKeepWired(j: Json, f: Feature, state: bool, fs: seq<Feature>)
    requires Wired(j)
    ensures Wired(WithFixed(j, f, state))
    ensures Wired(WithAllFixed(j, fs))
    ensures Wired(WithoutFixed(j, fs))
  {
  }

  /** Corrected: every listed feature is enabled after `with(Feature...)` and
      disabled after `without(Feature...)`. */
  lemma FixedListFactoriesReadBack(j: Json, fs: seq<Feature>, f: Feature)
    requires f in fs
    ensures IsEnabled(WithAllFixed(j, fs), f)
    ensures !IsEnabled(WithoutFixed(j, fs), f)
  {
    SetAllEnables(j.features, fs, f);
    ClearAllDisables(j.features, fs, f);
  }

  /** Corrected: a feature whose bits do not overlap the toggled one keeps
      its state. */
  lemma WithFixedKeepsOthers(j: Json, f: Feature, state: bool, g: Feature)
    requires Disjoint(f.mask, g.mask)
    ensures IsEnabled(WithFixed(j, f, state), g) == IsEnabled(j, g)
  {
    ToggleKeepsOthers(j.features, f, state, g);
  }

  /** Corrected: applying `with(f, state)` twice is the same as once. */
  lemma WithFixedIdempotent(j: Json, f: Feature, state: bool)
    ensures WithFixed(WithFixed(j, f, state), f, state) == WithFixed(j, f, state)
  {
    ToggleIdempotent(j.features, f, state);
  }

  /** Corrected: after `with(f, state)` the instance already carries the
      word a second call would compute, so that call takes the fast path. */
  lemma WithFixedHitsFastPath(j: Json, f: Feature, state: bool)
    ensures var once := WithFixed(j, f, state);
            Toggle(once.features, f, state) == once.features
  {
    ToggleIdempotent(j.features, f, state);
  }

  /** Corrected: chained feature changes accumulate in the instance, its
      reader and its writer. */
  lemma ChainedEnableKeepsBoth()
    ensures var r := WithFixed(WithFixed(Standard(0, FactoryRef(0)), Feature(1), true), Feature(2), true);
            r.features == 3 && r.reader.features == 3 && r.writer.features == 3
  {
    var j := Standard(0, FactoryRef(0));
    assert Toggle(j.features, Feature(1), true) == 1;
    assert Toggle(1, Feature(2), true) == 3;
  }

  /** Component factories keep a wired instance wired; an explicit reader or
      writer keeps it wired exactly when it carries the instance's word. */
  lemma ComponentFactoriesKeepWired(j: Json, f: FactoryRef, c: Option<CodecRef>,
                                    p: Option<PrinterRef>, lb: ListBuilderRef,
                                    mb: MapBuilderRef, rd: Reader, w: Writer)
    requires Wired(j)
    ensures Wired(WithFactory(j, f)) && Wired(WithCodec(j, c)) && Wired(WithPrinter(j, p))
    ensures Wired(WithListBuilder(j, lb)) && Wired(WithMapBuilder(j, mb))
    ensures Wired(WithReader(j, None)) && Wired(WithWriter(j, None))
    ensures Wired(WithReader(j, Some(rd))) <==> rd.features == j.features
    ensures Wired(WithWriter(j, Some(w))) <==> w.features == j.features && w.codec == j.codec
  {
  }
}

=== FILE: feature_flags.dfy ===
/** The feature word of the facade: a 32-bit mask (`int _features`) in which
    every `Feature` owns a non-empty set of bits. Setting, clearing and
    testing features is plain bitwise arithmetic on that word. */
module FeatureFlags {

  /** The bits a feature owns. The enum's concrete masks are not part of this
      model; all the facade relies on is that a mask is not zero. */
  type Mask = m: bv32 | m != 0 witness 1

  datatype Feature = Feature(mask: Mask)

  /** Every bit of `bits` is set in `word`. */
  predicate Contains(word: bv32, bits: bv32) {
    word & bits == bits
  }

  /** No bit of `bits` is set in `word`. */
  predicate Disjoint(word: bv32, bits: bv32) {
    word & bits == 0
  }

  /** Some bit of `bits` is set in `word`. */
  predicate Overlaps(word: bv32, bits: bv32) {
    word & bits != 0
  }

  /** `isEnabled`: some bit of the feature's mask is set in the word. */
  predicate Enabled(word: bv32, f: Feature) {
    Overlaps(word, f.mask)
  }

  predicate ContainsAll(word: bv32, fs: seq<Feature>) {
    forall k :: 0 <= k < |fs| ==> Contains(word, fs[k].mask)
  }

  predicate DisjointAll(word: bv32, fs: seq<Feature>) {
    forall k :: 0 <= k < |fs| ==> Disjoint(word, fs[k].mask)
  }

  /** A word holding the union of two bit sets holds each of them. */
  lemma ContainsBoth(r: bv32, a: bv32, b: bv32)
    requires Contains(r, a | b)
    ensures Contains(r, a) && Contains(r, b)
  {
  }

  /** A word within `word` minus the bits `m` is within `word` and avoids `m`. */
  lemma WithinBoth(word: bv32, m: bv32, r: bv32)
    requires Contains(word & !m, r)
    ensures Contains(word, r) && Disjoint(r, m)
  {
  }

  /** A word holding two bit sets holds their union. */
  lemma ContainsUnion(x: bv32, a: bv32, b: bv32)
    requires Contains(x, a) && Contains(x, b)
    ensures Contains(x, a | b)
  {
  }

  /** A word within `word` that avoids the bits `m` is within `word` minus `m`. */
  lemma WithinDifference(word: bv32, m: bv32, x: bv32)
    requires Contains(word, x) && Disjoint(x, m)
    ensures Contains(word & !m, x)
  {
  }

  /** Two words agree on every bit outside `m`. */
  predicate SameOutside(a: bv32, b: bv32, m: bv32) {
    a & !m == b & !m
  }

  lemma AgreeOutside(r: bv32, w: bv32, m: bv32, n: bv32)
    requires SameOutside(r, w, m) && Disjoint(m, n)
    ensures r & n == w & n
  {
  }

  /** Bits `n` outside `m` test the same in two words agreeing outside `m`. */
  lemma OverlapsOutside(r: bv32, w: bv32, m: bv32, n: bv32)
    requires SameOutside(r, w, m) && Disjoint(m, n)
    ensures Overlaps(r, n) == Overlaps(w, n)
  {
    AgreeOutside(r, w, m, n);
  }

  /** A feature not overlapping `f` tests the same in two words agreeing
      outside `f`'s bits. */
  lemma EnabledSameOutside(r: bv32, word: bv32, f: Feature, g: Feature)
    requires SameOutside(r, word, f.mask) && Disjoint(f.mask, g.mask)
    ensures Enabled(r, g) == Enabled(word, g)
  {
    OverlapsOutside(r, word, f.mask, g.mask);
  }

  lemma ContainsAllCons(r: bv32, fs: seq<Feature>)
    requires |fs| > 0
    requires Contains(r, fs[0].mask) && ContainsAll(r, fs[1..])
    ensures ContainsAll(r, fs)
  {
    forall k | 1 <= k < |fs|
      ensures Contains(r, fs[k].mask)
    {
      assert fs[k] == fs[1..][k - 1];
    }
  }

  lemma DisjointAllCons(r: bv32, fs: seq<Feature>)
    requires |fs| > 0
    requires Disjoint(r, fs[0].mask) && DisjointAll(r, fs[1..])
    ensures DisjointAll(r, fs)
  {
    forall k | 1 <= k < |fs|
      ensures Disjoint(r, fs[k].mask)
    {
      assert fs[k] == fs[1..][k - 1];
    }
  }

  lemma SetKeeps(word: bv32, m: bv32)
    ensures Contains(word | m, m) && SameOutside(word | m, word, m)
  {
  }

  lemma ClearKeeps(word: bv32, m: bv32)
    ensures Disjoint(word & !m, m) && SameOutside(word & !m, word, m)
  {
  }

  /** The word computed by `with(feature, state)`: the feature's bits are
      forced to `state`, every other bit keeps its value. */
  function Toggle(word: bv32, f: Feature, state: bool): (r: bv32)
    ensures state ==> Contains(r, f.mask)
    ensures !state ==> Disjoint(r, f.mask)
    ensures SameOutside(r, word, f.mask)
  {
    var m: bv32 := f.mask;
    if state then SetKeeps(word, m); word | m else ClearKeeps(word, m); word & !m
  }

  /** The word computed by `with(Feature...)`: OR in each mask, left to right.
      The result holds the original word and every listed mask. */
  function SetAll(word: bv32, fs: seq<Feature>): (r: bv32)
    ensures Contains(r, word)
    ensures ContainsAll(r, fs)
    decreases |fs|
  {
    if |fs| == 0 then word
    else
      var m: bv32 := fs[0].mask;
      var r := SetAll(word | m, fs[1..]);
      ContainsBoth(r, word, m);
      ContainsAllCons(r, fs);
      r
  }

  /** The word computed by `without(Feature...)`: clear each mask, left to
      right. The result lies within the original word and shares no bit
      with any listed mask. */
  function ClearAll(word: bv32, fs: seq<Feature>): (r: bv32)
    ensures Contains(word, r)
    ensures DisjointAll(r, fs)
    decreases |fs|
  {
    if |fs| == 0 then word
    else
      var m: bv32 := fs[0].mask;
      var r := ClearAll(word & !m, fs[1..]);
      WithinBoth(word, m, r);
      DisjointAllCons(r, fs);
      r
  }

  /** After `with(f, state)` the feature reads back as `state`. */
  lemma ToggleEnables(word: bv32, f: Feature, state: bool)
    ensures Enabled(Toggle(word, f, state), f) == state
  {
  }

  /** A feature whose bits do not overlap `f`'s is unaffected by toggling `f`. */
  lemma ToggleKeepsOthers(word: bv32, f: Feature, state: bool, g: Feature)
    requires Disjoint(f.mask, g.mask)
    ensures Enabled(Toggle(word, f, state), g) == Enabled(word, g)
  {
    EnabledSameOutside(Toggle(word, f, state), word, f, g);
  }

  /** Toggling twice to the same state is toggling once. */
  lemma ToggleIdempotent(word: bv32, f: Feature, state: bool)
    ensures Toggle(Toggle(word, f, state), f, state) == Toggle(word, f, state)
  {
    if state {
      SetIdempotent(word, f);
    } else {
      ClearIdempotent(word, f);
    }
  }

  lemma SetIdempotent(word: bv32, f: Feature)
    ensures Toggle(Toggle(word, f, true), f, true) == Toggle(word, f, true)
  {
    var m: bv32 := f.mask;
    SetTwice(word, m);
  }

  lemma ClearIdempotent(word: bv32, f: Feature)
    ensures Toggle(Toggle(word, f, false), f, false) == Toggle(word, f, false)
  {
    var m: bv32 := f.mask;
    ClearTwice(word, m);
  }

  /** Setting the same bits twice sets them once. */
  lemma SetTwice(w: bv32, m: bv32)
    ensures (w | m) | m == w | m
  {
  }

  /** Clearing the same bits twice clears them once. */
  lemma ClearTwice(w: bv32, m: bv32)
    ensures (w & !m) & !m == w & !m
  {
  }

  /** `with(f)` with a single feature computes the same word as `with(f, true)`. */
  lemma SetAllSingle(word: bv32, f: Feature)
    ensures SetAll(word, [f]) == Toggle(word, f, true)
  {
    assert [f][1..] == [];
  }

  /** `without(f)` with a single feature computes the same word as `with(f, false)`. */
  lemma ClearAllSingle(word: bv32, f: Feature)
    ensures ClearAll(word, [f]) == Toggle(word, f, false)
  {
    assert [f][1..] == [];
  }

  /** `SetAll` sets no bit it was not asked to: it is the least word holding
      the original word and every listed mask. */
  lemma {:induction false} SetAllLeast(word: bv32, fs: seq<Feature>, x: bv32)
    requires Contains(x, word) && ContainsAll(x, fs)
    ensures Contains(x, SetAll(word, fs))
    decreases |fs|
  {
    if |fs| > 0 {
      assert Contains(x, fs[0].mask);
      assert ContainsAll(x, fs[1..]) by {
        forall k | 0 <= k < |fs[1..]|
          ensures Contains(x, fs[1..][k].mask)
        {
          assert fs[1..][k] == fs[k + 1];
        }
      }
      var m: bv32 := fs[0].mask;
      ContainsUnion(x, word, m);
      SetAllLeast(word | m, fs[1..], x);
    }
  }

  /** `ClearAll` clears no bit it was not asked to: it is the greatest word
      within the original word that avoids every listed mask. */
  lemma {:induction false} ClearAllGreatest(word: bv32, fs: seq<Feature>, x: bv32)
    requires Contains(word, x) && DisjointAll(x, fs)
    ensures Contains(ClearAll(word, fs), x)
    decreases |fs|
  {
    if |fs| > 0 {
      assert Disjoint(x, fs[0].mask);
      assert DisjointAll(x, fs[1..]) by {
        forall k | 0 <= k < |fs[1..]|
          ensures Disjoint(x, fs[1..][k].mask)
        {
          assert fs[1..][k] == fs[k + 1];
        }
      }
      var m: bv32 := fs[0].mask;
      WithinDifference(word, m, x);
      ClearAllGreatest(word & !m, fs[1..], x);
    }
  }

  /** Every listed mask is contained in a word that contains all masks of a
      list holding the same features. */
  lemma ContainsAllSameFeatures(x: bv32, fs: seq<Feature>, gs: seq<Feature>)
    requires forall f :: f in gs ==> f in fs
    requires ContainsAll(x, fs)
    ensures ContainsAll(x, gs)
  {
    forall k | 0 <= k < |gs|
      ensures Contains(x, gs[k].mask)
    {
      assert gs[k] in fs;
      var j :| 0 <= j < |fs| && fs[j] == gs[k];
    }
  }

  lemma DisjointAllSameFeatures(x: bv32, fs: seq<Feature>, gs: seq<Feature>)
    requires forall f :: f in gs ==> f in fs
    requires DisjointAll(x, fs)
    ensures DisjointAll(x, gs)
  {
    forall k | 0 <= k < |gs|
      ensures Disjoint(x, gs[k].mask)
    {
      assert gs[k] in fs;
      var j :| 0 <= j < |fs| && fs[j] == gs[k];
    }
  }

  /** `with(Feature...)` depends only on WHICH features are listed: neither
      their order nor repetitions change the resulting word. */
  lemma {:induction false} SetAllSameFeatures(word: bv32, fs: seq<Feature>, gs: seq<Feature>)
    requires forall f :: f in fs <==> f in gs
    ensures SetAll(word, fs) == SetAll(word, gs)
  {
    var a, b := SetAll(word, fs), SetAll(word, gs);
    ContainsAllSameFeatures(a, fs, gs);
    ContainsAllSameFeatures(b, gs, fs);
    SetAllLeast(word, gs, a);
    SetAllLeast(word, fs, b);
  }

  /** `without(Feature...)` depends only on which features are listed. */
  lemma {:induction false} ClearAllSameFeatures(word: bv32, fs: seq<Feature>, gs: seq<Feature>)
    requires forall f :: f in fs <==> f in gs
    ensures ClearAll(word, fs) == ClearAll(word, gs)
  {
    var a, b := ClearAll(word, fs), ClearAll(word, gs);
    DisjointAllSameFeatures(a, fs, gs);
    DisjointAllSameFeatures(b, gs, fs);
    ClearAllGreatest(word, gs, a);
    ClearAllGreatest(word, fs, b);
  }

  /** Every feature listed to `with(Feature...)` reads back as enabled. */
  lemma SetAllEnables(word: bv32, fs: seq<Feature>, f: Feature)
    requires f in fs
    ensures Enabled(SetAll(word, fs), f)
  {
    var k :| 0 <= k < |fs| && fs[k] == f;
  }

  /** Every feature listed to `without(Feature...)` reads back as disabled. */
  lemma ClearAllDisables(word: bv32, fs: seq<Feature>, f: Feature)
    requires f in fs
    ensures !Enabled(ClearAll(word, fs), f)
  {
    var k :| 0 <= k < |fs| && fs[k] == f;
  }
}

=== FILE: reading.dfy ===
/** The read entry points of the facade (`listFromJSON`, `arrayFromJSON`,
    `mapFromJSON`, `fromJSON`): choosing a parser for the source, making
    sure the parser points at a token, handing it to the reader, and the
    close/clear discipline around that call. The tokenizer and the reader
    engine are parameters. */
module Reading {
  import opened Results

  datatype Token =
    | StartObject | EndObject | StartArray | EndArray | FieldName
    | ValueString | ValueInt | ValueFloat | ValueTrue | ValueFalse | ValueNull | ValueEmbedded

  /** A pull parser: the token it points at (if any), the tokens still to
      come, and whether it has been closed. */
  datatype Cursor = Cursor(current: Option<Token>, ahead: seq<Token>, closed: bool)

  /** `nextToken()`: at end-of-input there is no current token afterwards. */
  function NextToken(p: Cursor): Cursor {
    if |p.ahead| == 0 then p.(current := None)
    else p.(current := Some(p.ahead[0]), ahead := p.ahead[1..])
  }

  /** `clearCurrentToken()`. */
  function ClearCurrentToken(p: Cursor): Cursor {
    p.(current := None)
  }

  /** `_close(Closeable)`: closes; an `IOException` from `close()` is
      swallowed, so it has no outcome of its own. */
  function CloseQuietly(p: Cursor): Cursor {
    p.(closed := true)
  }

  /** `_initForReading`: keep a current token; otherwise advance once, and
      signal "no content" when there is still none. */
  function InitForReading(p: Cursor): (r: Result<Cursor, Error>)
    ensures r.Failure? <==> p.current.None? && |p.ahead| == 0
    ensures r.Failure? ==> r.error == NoContent
    ensures r.Success? ==> r.value.current.Some? && r.value.closed == p.closed
    ensures p.current.Some? ==> r == Success(p)
    ensures p.current.None? && |p.ahead| > 0 ==>
              r.Success? && r.value.current == Some(p.ahead[0]) && r.value.ahead == p.ahead[1..]
  {
    if p.current.Some? then Success(p)
    else
      var q := NextToken(p);
      if q.current.None? then Failure(NoContent) else Success(q)
  }

  // ---------------------------------------------------------------------
  // Source dispatch (`_parser`).
  // ---------------------------------------------------------------------

  /** The runtime class of a source, as far as the exact-class tests see it. */
  datatype RuntimeClass = StringClass | ByteArrayClass | CharArrayClass | OtherClass(name: string)

  /** The types a source may be an instance of, as far as the `instanceof`
      tests see it. */
  datatype Supertype = InputStreamType | ReaderType | UrlType | CharSequenceType | JsonParserType

  datatype Source = Source(cls: RuntimeClass, supertypes: set<Supertype>)

  /** Which `createParser` overload a source is handed to. */
  datatype Origin =
    | FromString | FromInputStream | FromReader | FromBytes | FromUrl | FromChars | FromCharSequence

  /** The order in which `_parser` tries the source kinds. */
  const Order: seq<Origin> :=
    [FromString, FromInputStream, FromReader, FromBytes, FromUrl, FromChars, FromCharSequence]

  /** The position of an origin in `Order`. */
  function Rank(o: Origin): (i: nat)
    ensures i < |Order| && Order[i] == o
  {
    match o
    case FromString => 0
    case FromInputStream => 1
    case FromReader => 2
    case FromBytes => 3
    case FromUrl => 4
    case FromChars => 5
    case FromCharSequence => 6
  }

  /** The test `_parser` applies for each kind: an exact class comparison for
      `String`, `byte[]` and `char[]`, an `instanceof` test for the rest. */
  predicate Accepts(s: Source, o: Origin) {
    match o
    case FromString => s.cls == StringClass
    case FromInputStream => InputStreamType in s.supertypes
    case FromReader => ReaderType in s.supertypes
    case FromBytes => s.cls == ByteArrayClass
    case FromUrl => UrlType in s.supertypes
    case FromChars => s.cls == CharArrayClass
    case FromCharSequence => CharSequenceType in s.supertypes
  }

  /** `getClass().getName()`. */
  function ClassName(c: RuntimeClass): string {
    match c
    case StringClass => "java.lang.String"
    case ByteArrayClass => "[B"
    case CharArrayClass => "[C"
    case OtherClass(name) => name
  }

  /** `_parser`: the first kind in `Order` that accepts the source; a
      `JsonParser` accepted by none is an illegal state, anything else
      accepted by none is unsupported. */
  function ParserFor(s: Source): (r: Result<Origin, Error>)
    ensures r.Success? ==> Accepts(s, r.value)
    ensures r.Success? ==> forall i :: 0 <= i < Rank(r.value) ==> !Accepts(s, Order[i])
    ensures r.Failure? ==> forall o :: !Accepts(s, o)
    ensures r.Failure? ==> r.error == (if JsonParserType in s.supertypes then IllegalState
                                       else UnsupportedSource(ClassName(s.cls)))
  {
    if s.cls == StringClass then Success(FromString)
    else if InputStreamType in s.supertypes then Success(FromInputStream)
    else if ReaderType in s.supertypes then Success(FromReader)
    else if s.cls == ByteArrayClass then Success(FromBytes)
    else if UrlType in s.supertypes then Success(FromUrl)
    else if s.cls == CharArrayClass then Success(FromChars)
    else if CharSequenceType in s.supertypes then Success(FromCharSequence)
    else if JsonParserType in s.supertypes then Failure(IllegalState)
    else Failure(UnsupportedSource(ClassName(s.cls)))
  }

  /** A `java.io.File` source (listed as supported in the documentation of
      `fromJSON` and in the error message) has no branch of its own and is
      rejected as unsupported. */
  lemma FileIsUnsupported()
    ensures ParserFor(Source(OtherClass("java.io.File"), {}))
            == Failure(UnsupportedSource("java.io.File"))
  {
  }

  /** A `String` is read as a string even though it is also a `CharSequence`. */
  lemma StringBeforeCharSequence(s: Source)
    requires s.cls == StringClass && CharSequenceType in s.supertypes
    ensures ParserFor(s) == Success(FromString)
  {
  }

  // ---------------------------------------------------------------------
  // Read entry points.
  // ---------------------------------------------------------------------

  /** Which reader operation an entry point calls: `readList`, `readArray`,
      `readMap` or `readValue`. */
  datatype ReadKind = AsList | AsArray | AsMap | AsValue

  /** A source that is not a `JsonParser`. Every entry point tests for a
      parser before anything else, so only such sources reach `_parser`. */
  type PlainSource = s: Source | JsonParserType !in s.supertypes witness Source(StringClass, {})

  /** What an entry point is given: a caller's parser, or any other object. */
  datatype Input = CallerParser(cursor: Cursor) | FromSource(source: PlainSource)

  /** What the reader engine reports: its result and where it left the
      parser. The engine advances the parser but does not close it. */
  datatype Step<V> = Step(result: Result<V, Error>, current: Option<Token>, ahead: seq<Token>)

  /** What an entry point returns (or throws), with the parser it worked on
      in its final state; `None` when no parser was ever created. */
  datatype ReadOutcome<V> = ReadOutcome(result: Result<V, Error>, parser: Option<Cursor>)

  /** The parser an entry point works on: the caller's, or the one the
      factory opens for a supported source. */
  function Opened(input: Input, open: Source -> Cursor): Option<Cursor> {
    match input
    case CallerParser(p) => Some(p)
    case FromSource(s) => if ParserFor(s).Success? then Some(open(s)) else None
  }

  /** The engine's position applied to the parser it was called on. */
  function After<V>(q: Cursor, s: Step<V>): Cursor {
    q.(current := s.current, ahead := s.ahead)
  }

  /** Shared shape of the four read entry points. */
  function ReadFromJson<V>(kind: ReadKind, input: Input, open: Source -> Cursor,
                           engine: (ReadKind, Cursor) -> Step<V>): (r: ReadOutcome<V>)
    // no parser is created for a source no kind accepts
    ensures r.parser.None? <==> Opened(input, open).None?
    ensures r.parser.None? ==> r.result == Failure(UnsupportedSource(ClassName(input.source.cls)))
    // the caller's parser is never closed here
    ensures input.CallerParser? ==> r.parser.Some? && r.parser.value.closed == input.cursor.closed
    // on "no content" the caller's parser is left as it was
    ensures input.CallerParser? && InitForReading(input.cursor).Failure? ==> r.parser == Some(input.cursor)
    // on a failed read the caller's parser is left where the reader stopped
    ensures input.CallerParser? && InitForReading(input.cursor).Success? && r.result.Failure? ==>
              var q := InitForReading(input.cursor).value;
              r.parser.value.current == engine(kind, q).current && r.parser.value.ahead == engine(kind, q).ahead
    // a parser created here is closed exactly when reading fails
    ensures input.FromSource? && r.parser.Some? ==>
              (r.parser.value.closed <==> open(input.source).closed || r.result.Failure?)
    // on success the current token is consumed, and nothing after it
    ensures r.result.Success? ==> r.parser.Some? && r.parser.value.current.None?
    // an exhausted parser signals "no content"
    ensures (Opened(input, open).Some? && Opened(input, open).value.current.None?
             && |Opened(input, open).value.ahead| == 0) ==> r.result == Failure(NoContent)
    // otherwise the result is the engine's, called on a parser with a current token
    ensures Opened(input, open).Some? && InitForReading(Opened(input, open).value).Success? ==>
              var q := InitForReading(Opened(input, open).value).value;
              q.current.Some? && r.result == engine(kind, q).result
              && (r.result.Success? ==> r.parser.value.ahead == engine(kind, q).ahead)
  {
    match input
    case CallerParser(p) =>
      (match InitForReading(p)
       case Failure(e) => ReadOutcome(Failure(e), Some(NextToken(p)))
       case Success(q) =>
         var s := engine(kind, q);
         if s.result.Success? then ReadOutcome(s.result, Some(ClearCurrentToken(After(q, s))))
         else ReadOutcome(s.result, Some(After(q, s))))
    case FromSource(src) =>
      (match ParserFor(src)
       case Failure(e) => ReadOutcome(Failure(e), None)
       case Success(_) =>
         var p := open(src);
         match InitForReading(p)
         case Failure(e) => ReadOutcome(Failure(e), Some(CloseQuietly(NextToken(p))))
         case Success(q) =>
           var s := engine(kind, q);
           if s.result.Success? then ReadOutcome(s.result, Some(ClearCurrentToken(After(q, s))))
           else ReadOutcome(s.result, Some(CloseQuietly(After(q, s)))))
  }

  /** The entry points never raise `_parser`'s illegal-state error: the only
      errors they report that the reader did not are "no content" and an
      unsupported source. */
  lemma EntryPointsNeverIllegalState<V>(kind: ReadKind, input: Input, open: Source -> Cursor,
                                        engine: (ReadKind, Cursor) -> Step<V>)
    requires forall q :: engine(kind, q).result != Failure(IllegalState)
    ensures ReadFromJson(kind, input, open, engine).result != Failure(IllegalState)
    ensures var r := ReadFromJson(kind, input, open, engine);
            r.result.Failure? ==>
              r.result.error == NoContent || r.result.error.UnsupportedSource?
              || exists q :: r.result == engine(kind, q).result
  {
    var r := ReadFromJson(kind, input, open, engine);
    var o := Opened(input, open);
    if o.Some? && InitForReading(o.value).Success? {
      var q := InitForReading(o.value).value;
      assert r.result == engine(kind, q).result;
    }
  }

  /** Reading the same source as a list, array, map or value differs only in
      the reader operation called: the parser ends in the same state when
      the engine reports the same step for each. */
  lemma EntryPointsDifferOnlyInEngine<V>(a: ReadKind, b: ReadKind, input: Input,
                                         open: Source -> Cursor, engine: (ReadKind, Cursor) -> Step<V>)
    requires forall q :: engine(a, q) == engine(b, q)
    ensures ReadFromJson(a, input, open, engine) == ReadFromJson(b, input, open, engine)
  {
  }

  /** An empty container is not "no content": a parser positioned on `[`
      reaches the engine, whatever follows. */
  lemma EmptyArrayReachesEngine<V>(kind: ReadKind, rest: seq<Token>, closed: bool,
                                   open: Source -> Cursor, engine: (ReadKind, Cursor) -> Step<V>)
    ensures var p := Cursor(None, [StartArray] + rest, closed);
            ReadFromJson(kind, CallerParser(p), open, engine).result
            == engine(kind, Cursor(Some(StartArray), rest, closed)).result
  {
    var p := Cursor(None, [StartArray] + rest, closed);
    assert p.ahead[1..] == rest;
  }
}

=== FILE: results.dfy ===
/** Failure-carrying datatypes shared by the facade model, and the
    exceptions the facade raises or lets through, as plain values. */
module Results {

  /** A possibly-absent value; `None` stands for a Java `null`. */
  datatype Option<+T> = None | Some(value: T)

  /** A value, or the exception that replaced it. */
  datatype Result<+T, +E> = Success(value: T) | Failure(error: E)

  /** The completion of a `void` call: normal return or an exception. */
  datatype Outcome<+E> = Pass | Fail(error: E)

  /** The exceptions the facade raises itself, plus an opaque one for
      everything its collaborators (tokenizer, reader, writer) may throw. */
  datatype Error =
    | NoContent                            // the input ended before any token
    | IllegalState                         // a JsonParser handed to the source dispatcher
    | UnsupportedSource(className: string) // a source of no supported kind, by class name
    | Thrown(reason: string)               // propagated from a collaborator
}

=== FILE: writing.dfy ===
/** The write entry points of the facade: writing into a generator the
    facade owns (`_writeAndClose`, behind `writeJSON` to a stream, writer or
    file) and into a generator the caller owns (`writeJSON(value,
    JsonGenerator)`). The writer engine is reduced to how `writeValue`
    completes. */
module Writing {
  import opened Results
  import opened FeatureFlags
  import Facade

  /** A generator, as far as the facade affects it. `closed` and `flushed`
      record that `close()` and `flush()` have been called, whether or not
      those calls completed. */
  datatype Generator = Generator(closed: bool, flushed: bool)

  datatype WriteOutcome = WriteOutcome(result: Outcome<Error>, generator: Generator)

  /** `_writeAndClose`: `written` is how `writeValue` completed and `closing`
      how `close()` completes. The generator is closed on both paths; after
      a failed write, a failure to close is swallowed so that it does not
      mask the write failure, while after a successful write it propagates. */
  function WriteAndClose(g: Generator, written: Outcome<Error>, closing: Outcome<Error>): (r: WriteOutcome)
    ensures r.generator.closed
    ensures r.generator.flushed == g.flushed
    ensures r.result.Fail? <==> written.Fail? || closing.Fail?
    ensures written.Fail? ==> r.result == written
    ensures written.Pass? ==> r.result == closing
  {
    if written.Pass? then WriteOutcome(closing, g.(closed := true))
    else WriteOutcome(written, g.(closed := true))
  }

  /** After a failed write, how the close goes makes no difference. */
  lemma WriteFailureIsNeverMasked(g: Generator, e: Error, closing: Outcome<Error>)
    ensures WriteAndClose(g, Fail(e), closing) == WriteAndClose(g, Fail(e), Pass)
  {
  }

  /** `writeJSON(value, JsonGenerator)`: `written` is how `writeValue`
      completed and `flushing` how `flush()` completes. The caller's
      generator is never closed; it is flushed after a successful write
      exactly when the instance reports the flush-after-write feature
      enabled, and a failing flush is then the call's failure. The feature's
      mask is a parameter. */
  function WriteToGenerator(j: Facade.Json, flushAfterWrite: Feature, g: Generator,
                            written: Outcome<Error>, flushing: Outcome<Error>): (r: WriteOutcome)
    ensures r.generator.closed == g.closed
    ensures r.generator.flushed <==> g.flushed || (written.Pass? && Facade.IsEnabled(j, flushAfterWrite))
    ensures r.result.Fail? <==>
              written.Fail? || (Facade.IsEnabled(j, flushAfterWrite) && flushing.Fail?)
    ensures written.Fail? ==> r.result == written
    ensures written.Pass? && Facade.IsEnabled(j, flushAfterWrite) ==> r.result == flushing
  {
    if written.Fail? then WriteOutcome(written, g)
    else if Facade.IsEnabled(j, flushAfterWrite) then WriteOutcome(flushing, g.(flushed := true))
    else WriteOutcome(Pass, g)
  }

  /** As written, toggling the flush-after-write feature through the mutant
      factory has no effect on whether `writeJSON` flushes. */
  lemma FlushIgnoresFeatureToggle(j: Facade.Json, flushAfterWrite: Feature, state: bool,
                                  g: Generator, written: Outcome<Error>, flushing: Outcome<Error>)
    ensures WriteToGenerator(Facade.With(j, flushAfterWrite, state), flushAfterWrite, g, written, flushing)
            == WriteToGenerator(j, flushAfterWrite, g, written, flushing)
  {
  }

  /** With the corrected factory, enabling the feature makes a successful
      write flush and report how the flush went; disabling it leaves the
      generator unflushed and the call successful. */
  lemma FlushFollowsFixedToggle(j: Facade.Json, flushAfterWrite: Feature, g: Generator,
                                flushing: Outcome<Error>)
    ensures var r := WriteToGenerator(Facade.WithFixed(j, flushAfterWrite, true), flushAfterWrite, g,
                                      Pass, flushing);
            r.generator.flushed && r.result == flushing
    ensures var r := WriteToGenerator(Facade.WithFixed(j, flushAfterWrite, false), flushAfterWrite, g,
                                      Pass, flushing);
            r.generator.flushed == g.flushed && r.result == Pass
  {
  }
}
